=== FILE: README.md ===
# cpj: a Dafny model of the parallel tree copier's sequential core

`cpj` copies a directory tree. It walks the source tree and collects every
non-directory path onto a string stack. It then builds the parallel list of
destination paths by swapping the source root for the destination root. A pool
of goroutines drains the two stacks under one mutex, copying one file per claim.
A dispatcher collects their error and completion reports from a channel.

This project models the sequential logic under that concurrency, with sequences
and pure functions:

- `stacks.dfy` (module `Stacks`): package `stack`. A `*Stack` is `Nil` or
  `Stk(items)`, and `Push`, `Pop` and `Merge` keep their nil and empty edge cases.
- `paths.dfy` (module `Paths`): root normalisation, `strings.TrimPrefix`,
  Go's `copy`, and the two mapping loops of `parallelCopy`.
- `walk.dfy` (module `Walk`): `countFiles` and `visitDirectory` as loops over
  an abstract sequence of visited `(path, isDir)` entries.
- `jobs.dfy` (module `Jobs`): the claim under the lock and the loop of
  `copyRoutine`, as a state machine of atomic steps. A schedule chooses which
  worker moves next and what each copy returns. The outcome channel is an
  append-only log.
- `dispatch.dfy` (module `Dispatch`): `jobDispatcher`'s worker-count clamp, the
  channel size, and the receive loop as a fold over the log.
- `parallelcopy.dfy` (module `ParallelCopy`): the setup decisions of
  `parallelCopy` and the tree copy that connects everything.
- `common.dfy` (module `Common`): `Error`, `Option`, `Result`, `Min`.

Collaborators whose code is not part of this model become parameters:
`cp.AbsolutePath`, `os.Lstat`, `cp.CopyFile` and `filepath.Walk`.

Two behaviours of the code are worth knowing:

- Root normalisation appends `/` only when it is missing (cpj.go:119-121,
  129-131). So a root ending in `//` keeps both separators.
- With continue-on-error off, a worker whose copy fails returns without a
  completion report (cpj.go:228-230). The completion count at cpj.go:276 then
  never reaches zero, and the receive loop waits for a completion that never
  comes, as `Dispatch.DispatchBlocksWithoutCont` shows. Once every goroutine
  is blocked, Go's runtime aborts the program with its "all goroutines are
  asleep" fatal error instead of hanging.

## Model

| member | source | states |
|---|---|---|
| Stacks.Push | stack/stack.go:7-18 | a nil stack stays nil; a non-nil stack grows by one, keeps its old contents as prefix and has `val` on top |
| Stacks.Pop | stack/stack.go:20-27 | a nil or empty stack gives `("", nil)` and only then; otherwise the result stack is non-nil and the result stack plus the popped value is the input |
| Stacks.Merge | stack/stack.go:29-34 | a nil `dest` stays nil; otherwise `dest` ends up holding its old contents followed by `src` in `src`'s order |
| Stacks.PushPop | stack/stack.go:7-26 | round trip: `Pop(Push(s, v))` gives `v` and `s` back for non-nil `s`, and `("", nil)` for nil |
| Stacks.PopTimesPrefix | stack/stack.go:20-27 | popping an `n`-element stack `k <= n` times leaves a non-nil stack of its first `n-k` elements; nil appears only at pop `n+1` |
| Paths.TrimPrefix | cpj.go:126 | a path with the prefix is that prefix followed by the result; a path without it is returned unchanged |
| Paths.NormalizeRoot | cpj.go:119-131 | the result ends in `/`, extends the root by at most one character, and equals the root when the root already ended in `/` |
| Paths.CopySlice | cpj.go:114 | Go's `copy`: the count is `min(len(dst), len(src))`, the first that many entries come from `src` and the rest are kept |
| Paths.MapPaths | cpj.go:105-138 | the destination list has `count` entries and entry `i` is the destination root plus source entry `i` without the source root; entries past the source list are the bare destination root |
| Paths.NormalizeIdempotent | cpj.go:119-121 | normalising a normalised root changes nothing |
| Paths.SeparatorIndependent | cpj.go:119-131 | a root given with or without its trailing `/` yields the same mapping |
| Paths.MapPathRoundTrip | cpj.go:125-138 | for a path under the source root, stripping the destination root from its destination gives its relative part, and the source root plus that gives the path back |
| Paths.MapPathInjective | cpj.go:125-138 | distinct source files under the source root get distinct destinations |
| Walk.CountFiles | cpj.go:158-169 | the count equals the number of non-directory entries visited |
| Walk.RecurseFileTree | cpj.go:150-191 | the returned slice is the given one followed by exactly the non-directory paths, in visit order |
| Walk.FilesOfCount | cpj.go:158-190 | the number of collected paths equals the number of non-directory positions, so the count equals the stack's length |
| Walk.FilesOfMembership | cpj.go:171-190 | a path is collected exactly when some visited non-directory entry has it |
| Jobs.Init | cpj.go:240-259 | the pool at the start holds both lists as given in one queue, `w` workers about to claim, no reports, no claims and no copies |
| Jobs.ClaimJob | cpj.go:207-218 | the claim is empty exactly when the source stack is empty, and then the source stack becomes nil; otherwise the claimed source is the top of the source stack and both stacks shrink by one |
| Jobs.Step | cpj.go:203-232 | one atomic worker step: other workers are untouched, and the log, claim history and copy history only grow, by at most one. A completion report comes only from a claim that ended the worker. A claim that hands out a job sets the worker copying exactly that job and copies nothing. A copy step copies the job the worker holds, records it with the copy's result, leaves queue and claims alone, sends the worker back to claiming after a success, and sends exactly one report, naming the worker and the job, when the copy failed and none when it succeeded. After an error the worker claims again with `cont` or stops without it |
| Jobs.StepInv | cpj.go:203-232 | every step keeps the queue, claim-history and report-count invariant |
| Jobs.ClaimsAreLifo | cpj.go:207-218 | under any schedule the claims so far are the last pairs in reverse order, each at most once, and the queue holds exactly the pairs before them |
| Jobs.ClaimsExactlyOnce | cpj.go:207-218 | in either mode, once some worker has found the queue empty, every pair was claimed exactly once and the queue is empty |
| Jobs.HistoryStep | cpj.go:203-232 | every step keeps the copy history consistent: each claimed job has been copied or is held by the worker copying it, and the errors sent are exactly the errors the copies returned, in order |
| Jobs.SendersStep | cpj.go:207-231 | without `cont` every step keeps each report naming a returned worker and no two reports naming the same one |
| Jobs.ReportsBoundedWithoutCont | cpj.go:207-231 | without `cont` every report names a worker that has returned and no two reports name the same worker, so at most one report per worker and at most `w` reports in all |
| Jobs.CopiesMatchClaims | cpj.go:207-231 | under any schedule the errors sent are exactly the copies' errors in the order the copies finished, and no job was copied more often than claimed; once every worker has returned the copied jobs are exactly the claimed ones |
| Jobs.CopiesExactlyOnce | cpj.go:207-231 | once every worker has returned and one found the queue empty, there were exactly `|src|` copies and each pair of the lists was copied as many times as it occurs in them |
| Jobs.StepProgress | cpj.go:203-232 | a step of a worker that has not returned strictly lowers the remaining work |
| Jobs.InitMeasure | cpj.go:255-260 | the work at the start is three units per job plus one per worker |
| Jobs.EffectiveStepsBound | cpj.go:203-232 | from any reachable pool, no schedule makes more moves that change the pool than the work left |
| Jobs.RunEffectiveSteps | cpj.go:255-260 | from the start, any schedule makes at most `3 * |src| + w` moves that change the pool |
| Jobs.TerminalWithCont | cpj.go:207-217 | with `cont` and at least one worker, once all workers have returned, the log holds one completion per worker and ends with a completion |
| Jobs.TerminalNoneStopped | cpj.go:207-231 | in either mode, a finished pool of at least one worker where no worker stopped on an error has sent one completion per worker and ends with a completion |
| Jobs.TerminalWithoutCont | cpj.go:225-231 | without `cont`, a finished pool where some worker stopped on an error holds fewer completions than workers |
| Dispatch.WorkerCount | cpj.go:243-245 | the worker count is at most the request and at most the job count, and equals one of them |
| Dispatch.Capacity | cpj.go:250-254 | the buffer is the worker count, or with `cont` the worker count doubled in wrapping 64-bit arithmetic. It is negative, so `make` panics, exactly for a negative count, except that with `cont` a count below -2^62 wraps to a non-negative size and one of 2^62 or more wraps to a negative one |
| Dispatch.Receive | cpj.go:262-279 | one receive: after a return nothing changes; an error is appended and never makes the loop return; a completion lowers the count by one and returns exactly when the count was 1 |
| Dispatch.Aggregate | cpj.go:261-280 | while waiting, the count is the start value less the completions received and every error is held; it can have returned only after `w >= 1` completions |
| Dispatch.AggregateSpec | cpj.go:261-281 | the loop returns exactly when the `w`-th completion arrives, which needs `w >= 1`, and returns the errors received before it in arrival order; until then it holds every error and waits for the missing completions |
| Dispatch.AggregateNeverReturns | cpj.go:261-281 | with a non-positive worker count the loop never returns, whatever arrives |
| Dispatch.AggregateWholeLog | cpj.go:262-279 | a log whose last report is its `w`-th completion makes the loop return every error in the log |
| Dispatch.JobDispatcher | cpj.go:236-282 | for fewer than 2^62 jobs it panics exactly for a negative request, except a `cont` request below -2^62, where it starts no worker and stays in its receive loop. It returns only with at least one job and one worker, and stays receiving with nothing received for a zero request, or a positive request with an empty job list |
| Dispatch.DispatchReturnsWithCont | cpj.go:236-282 | with `cont` and fewer than 2^62 jobs (so the doubled worker count cannot wrap), once all workers have returned, the dispatcher returns every reported error in arrival order, those are exactly the errors the copies returned, and every pair was claimed and copied exactly once |
| Dispatch.DispatchReturnsWhenNoneStopped | cpj.go:236-282 | in either mode, with fewer than 2^62 jobs, once all workers have returned and none stopped on an error, the dispatcher returns every reported error in arrival order, those are exactly the errors the copies returned, and every pair was claimed and copied exactly once |
| Dispatch.DispatchBlocksWithoutCont | cpj.go:225-231 | without `cont`, once all workers have returned and one stopped on an error, the dispatcher stays blocked waiting for a completion |
| Dispatch.ReportsFitWithoutCont | cpj.go:250-254 | without `cont` the reports never exceed the channel buffer |
| ParallelCopy.Decide | cpj.go:69-96 | a resolvable non-directory source is copied directly. A directory source needs `recurse` and a resolvable destination directory for a tree copy. Each setup failure gives its own error, checked in the source's order |
| ParallelCopy.DestinationIgnoredUnlessRecursing | cpj.go:77-96 | the destination is never consulted unless the source is a directory and `recurse` is set |
| ParallelCopy.ParallelCopy | cpj.go:64-147 | setup errors and the single copy's error are returned as is. A tree copy builds exactly the walked files and their mapped destinations. The call panics exactly when the dispatcher's `make` does. When the dispatcher returns, the call returns nil and its error list is dropped |

## Left out

- Filesystem and foreign calls (`cp.AbsolutePath`, `os.Lstat`, `cp.CopyFile`, `filepath.Walk`): their results are parameters. Their code is not part of this model.
- Goroutines, the mutex and the channel's blocking and buffering: each claim is one atomic step, the channel is a log in send order, and the scheduler is the schedule parameter.
- `main`'s flag parsing, and the printing controlled by `verbose` and `useful`: neither affects the logic.
- Debug mode (the `debug` flag) is not modelled, and it is more than printing. At cpj.go:200 each worker dereferences the shared source stack outside the lock, which panics once another worker's empty claim has set it to nil. At cpj.go:142-143 destination entries are indexed by source position, which panics when the second walk found more files than the first.
- The `hardlink` flag: it is only passed on to the copy primitive, whose result is a parameter.
- `log.Fatal` and `panic` on walk errors: a walk is a finished sequence of entries.
- Slice aliasing and capacity: stacks are modelled by their contents only.
- ParallelCopy.ParallelCopy: both walks see the same entries. A tree that changes between the walks is not modelled, though `Paths.MapPaths` itself covers a count that differs from the list length.
- Stacks.Merge: requires a non-nil `src`. The source dereferences it, and a nil `src` would crash.
- Stacks.Push: the second nil test in the source can never succeed and is not written out.
- Dispatch.JobDispatcher: a receive loop that has not returned when the schedule ends is reported as `Receiving`, whether more reports could still come or none ever will. What the Go runtime does when every goroutine is blocked is not modelled.
- Dispatch.JobDispatcher: Go's `make` also refuses a buffer larger than the runtime's allocation limit, which depends on the platform. The model lets any non-negative size through. So for a `cont` request below -2^62, whose doubled value wraps to a huge size, the model reports `Receiving` where Go panics, except near -2^63, where the size wraps to a small one.
- ParallelCopy.ParallelCopy: it inherits the allocation-limit gap of `Dispatch.JobDispatcher` for a `cont` request below -2^62.
- Strings: Go strings are byte sequences, while the model's `string` is a sequence of `char`. Prefix and suffix arithmetic does not depend on the alphabet, so nothing is lost.

=== FILE: common.dfy ===
/** Small shared vocabulary: Go's nil-able `error`, optional values and
    results of calls into collaborators that are not modelled. */
module Common {

  /** A non-nil Go `error`, identified by its message. */
  datatype Error = Error(msg: string)

  /** Optional value; `None` plays the role of Go's `nil`. */
  datatype Option<T> = None | Some(value: T)

  /** The `(value, err)` pair a Go function returns, with exactly one side meaningful. */
  datatype Result<T> = Ok(value: T) | Fail(err: Error)

  /** Go's `int` on a 64-bit platform. */
  const Int64Min: int := -0x8000_0000_0000_0000
  const Int64Max: int := 0x7fff_ffff_ffff_ffff
  type Int64 = x: int | Int64Min <= x <= Int64Max

  function Min(a: int, b: int): (r: int)
    ensures r <= a && r <= b
    ensures r == a || r == b
  {
    if a <= b then a else b
  }
}

=== FILE: dispatch.dfy ===
/** `jobDispatcher` (cpj.go): clamps the worker count, sizes the outcome
    channel, starts the workers on one shared queue and folds over the reports
    until every worker has sent its completion. */
module Dispatch {
  import opened Common
  import opened Jobs

  /** The number of workers started: the requested number, lowered to the
      number of jobs when it exceeds it (a non-positive request is kept). */
  function WorkerCount(jobs: Int64, size: nat): (w: Int64)
    ensures w <= jobs && w <= size
    ensures w == jobs || w == size
  {
    if jobs > size then size else jobs
  }

  /** How many workers the spawn loop `for i := 0; i < w; i++` starts. */
  function Spawned(w: int): nat
  {
    if w < 0 then 0 else w
  }

  /** 2^62: doubling a 64-bit integer stays in range exactly below this in magnitude. */
  const TwoPow62: int := 0x4000_0000_0000_0000

  /** The outcome channel's buffer: one report per worker, doubled in Go's
      64-bit arithmetic (which wraps) when errors let workers continue. Go's
      `make` panics on a negative size. */
  function Capacity(cont: bool, w: Int64): (c: Int64)
    ensures !cont ==> c == w
    ensures cont ==> (c - 2 * w) % 0x1_0000_0000_0000_0000 == 0
    ensures cont && -TwoPow62 <= w < TwoPow62 ==> c == 2 * w
    ensures w >= 0 && (!cont || w < TwoPow62) ==> c >= w
    ensures c < 0 <==> if cont then -TwoPow62 <= w < 0 || TwoPow62 <= w else w < 0
  {
    if !cont then w
    else
      var d := w * 2;
      if d < Int64Min then d + 0x1_0000_0000_0000_0000
      else if d > Int64Max then d - 0x1_0000_0000_0000_0000
      else d
  }

  /** The aggregator's state: still counting down the completions it waits for,
      with the errors collected so far; or returned with its error list. */
  datatype Aggregator = Waiting(total: int, errs: seq<Error>) | Returned(errs: seq<Error>)

  /** One iteration of the receive loop. An error is appended; a completion
      counts down, and the loop returns when the count reaches zero. */
  function Receive(a: Aggregator, m: Message): (r: Aggregator)
    ensures a.Returned? ==> r == a
    ensures a.Waiting? && m.err.Some? ==> r == Waiting(a.total, a.errs + [m.err.value])
    ensures a.Waiting? && m.err.None? ==> r.errs == a.errs && (r.Returned? <==> a.total == 1)
    ensures a.Waiting? && m.err.None? && r.Waiting? ==> r.total + 1 == a.total
  {
    match a
    case Returned(_) => a
    case Waiting(total, errs) =>
      if m.err.Some? then Waiting(total, errs + [m.err.value])
      else if total - 1 == 0 then Returned(errs)
      else Waiting(total - 1, errs)
  }

  /** The aggregator after receiving `msgs` in order, having started with `w`.
      While it waits, it has counted down one per completion and holds every
      error; it can only have returned once `w >= 1` completions arrived. */
  function Aggregate(w: int, msgs: seq<Message>): (a: Aggregator)
    ensures a.Waiting? ==> a == Waiting(w - Completions(msgs), ErrorsOf(msgs))
    ensures a.Returned? ==> w >= 1 && Completions(msgs) >= w
  {
    if |msgs| == 0 then Waiting(w, [])
    else Receive(Aggregate(w, msgs[..|msgs| - 1]), msgs[|msgs| - 1])
  }

  /** The aggregator returns exactly when the `w`-th completion has arrived,
      which needs `w >= 1`; it then returns the errors that arrived before that
      completion, in arrival order. Until then it holds every error so far and
      waits for the completions still missing. */
  lemma {:induction false} AggregateSpec(w: int, msgs: seq<Message>)
    ensures Aggregate(w, msgs).Returned? <==> w >= 1 && Completions(msgs) >= w
    ensures Aggregate(w, msgs).Waiting? ==>
              Aggregate(w, msgs) == Waiting(w - Completions(msgs), ErrorsOf(msgs))
    ensures Aggregate(w, msgs).Returned? ==>
              exists k :: 0 < k <= |msgs| && msgs[k - 1].err.None?
                          && Completions(msgs[..k]) == w
                          && Aggregate(w, msgs).errs == ErrorsOf(msgs[..k])
    decreases |msgs|
  {
    if |msgs| > 0 {
      var n := |msgs| - 1;
      var init := msgs[..n];
      var m := msgs[n];
      AggregateSpec(w, init);
      assert msgs == init + [m];
      CompletionsAppend(init, m);
      if Aggregate(w, init).Returned? {
        var k :| 0 < k <= |init| && init[k - 1].err.None?
                 && Completions(init[..k]) == w
                 && Aggregate(w, init).errs == ErrorsOf(init[..k]);
        assert init[..k] == msgs[..k];
        assert init[k - 1] == msgs[k - 1];
        CompletionsPrefix(msgs, n);
      } else if m.err.None? && w - Completions(init) == 1 {
        assert msgs[..n + 1] == msgs;
      }
    }
  }

  /** Completions only accumulate along a log. */
  lemma {:induction false} CompletionsPrefix(msgs: seq<Message>, k: nat)
    requires k <= |msgs|
    ensures Completions(msgs[..k]) <= Completions(msgs)
    decreases |msgs| - k
  {
    if k < |msgs| {
      CompletionsPrefix(msgs, k + 1);
      assert msgs[..k + 1][..k] == msgs[..k];
    } else {
      assert msgs[..k] == msgs;
    }
  }

  /** With no worker to wait for (an empty tree or a non-positive request),
      the aggregator never returns, whatever arrives. */
  lemma AggregateNeverReturns(w: int, msgs: seq<Message>)
    requires w <= 0
    ensures Aggregate(w, msgs).Waiting?
  {
  }

  /** A log whose last report is its `w`-th completion makes the aggregator
      return every error in the log. */
  lemma AggregateWholeLog(w: int, msgs: seq<Message>)
    requires w >= 1 && Completions(msgs) == w
    requires |msgs| > 0 && msgs[|msgs| - 1].err.None?
    ensures Aggregate(w, msgs) == Returned(ErrorsOf(msgs))
  {
    var n := |msgs| - 1;
    AggregateSpec(w, msgs[..n]);
    assert msgs == msgs[..n] + [msgs[n]];
    CompletionsAppend(msgs[..n], msgs[n]);
  }

  /** What the dispatcher has done after the workers' schedule: panicked while
      making the channel, returned the collected errors, or is still in its
      receive loop (with the count of completions it still waits for and the
      errors held so far). Still receiving covers both a schedule that simply
      ended early and a pool that can never send the missing completions. */
  datatype Outcome = MakeChanPanics | Returns(errs: seq<Error>) | Receiving(total: int, errs: seq<Error>)

  /** `jobDispatcher` with the workers run under schedule `sched`. The copy
      outcomes and the interleaving are both inside `sched`. */
  function JobDispatcher(src: seq<string>, dest: seq<string>, cont: bool, jobs: Int64, sched: seq<Choice>): (r: Outcome)
    ensures |src| < TwoPow62 ==>
              (r.MakeChanPanics? <==> jobs < 0 && (!cont || -TwoPow62 <= jobs))
    ensures r.Returns? ==> 1 <= jobs && 1 <= |src|
    ensures jobs == 0 || (jobs > 0 && |src| == 0) ==> r == Receiving(0, [])
    ensures cont && jobs < -TwoPow62 ==> r == Receiving(jobs, [])
  {
    var w := WorkerCount(jobs, |src|);
    if Capacity(cont, w) < 0 then MakeChanPanics
    else
      var p := Run(Init(src, dest, Spawned(w)), cont, sched);
      AggregateSpec(w, p.log);
      assert Spawned(w) == 0 ==> p.log == [] by {
        if Spawned(w) == 0 { NoWorkersNoReports(Init(src, dest, 0), cont, sched); }
      }
      match Aggregate(w, p.log)
      case Returned(errs) => Returns(errs)
      case Waiting(total, errs) => Receiving(total, errs)
  }

  /** A pool without workers never moves. */
  lemma {:induction false} NoWorkersNoReports(p: Pool, cont: bool, sched: seq<Choice>)
    requires |p.workers| == 0
    ensures Run(p, cont, sched) == p
    decreases |sched|
  {
    if |sched| > 0 {
      NoWorkersNoReports(Step(p, cont, sched[0]), cont, sched[1..]);
    }
  }

  /** With `cont` (and fewer than 2^62 jobs, so that the doubled worker count
      does not wrap), once every worker has returned the dispatcher returns, and
      what it returns is every error reported, in arrival order; every job was
      claimed exactly once. */
  lemma DispatchReturnsWithCont(src: seq<string>, dest: seq<string>, jobs: Int64, sched: seq<Choice>)
    requires |src| == |dest| && 1 <= jobs && 1 <= |src| < TwoPow62
    requires Terminal(Run(Init(src, dest, WorkerCount(jobs, |src|)), true, sched))
    ensures var p := Run(Init(src, dest, WorkerCount(jobs, |src|)), true, sched);
            && JobDispatcher(src, dest, true, jobs, sched) == Returns(ErrorsOf(p.log))
            && ErrorsOf(p.log) == Failures(p.attempts)
            && |p.claimed| == |src|
            && (forall i :: 0 <= i < |src| ==> p.claimed[|src| - 1 - i] == Pair(src[i], dest[i]))
            && multiset(JobsOf(p.attempts)) == multiset(Pairs(src, dest))
  {
    var w := WorkerCount(jobs, |src|);
    TerminalWithCont(src, dest, w, sched);
    DispatchReturnsWhenNoneStopped(src, dest, true, jobs, sched);
  }

  /** In either mode, once every worker has returned and none stopped on an
      error (without `cont`: no copy failed), and the job list is short enough
      that doubling the worker count cannot wrap, the dispatcher returns every
      reported error in arrival order and every job was claimed exactly once. */
  lemma DispatchReturnsWhenNoneStopped(src: seq<string>, dest: seq<string>, cont: bool, jobs: Int64, sched: seq<Choice>)
    requires |src| == |dest| && 1 <= jobs && 1 <= |src| < TwoPow62
    requires var p := Run(Init(src, dest, WorkerCount(jobs, |src|)), cont, sched);
             Terminal(p) && forall i :: 0 <= i < |p.workers| ==> !p.workers[i].Stopped?
    ensures var p := Run(Init(src, dest, WorkerCount(jobs, |src|)), cont, sched);
            && JobDispatcher(src, dest, cont, jobs, sched) == Returns(ErrorsOf(p.log))
            && ErrorsOf(p.log) == Failures(p.attempts)
            && |p.claimed| == |src|
            && (forall i :: 0 <= i < |src| ==> p.claimed[|src| - 1 - i] == Pair(src[i], dest[i]))
            && multiset(JobsOf(p.attempts)) == multiset(Pairs(src, dest))
  {
    var w := WorkerCount(jobs, |src|);
    var p := Run(Init(src, dest, w), cont, sched);
    assert p.workers[0].Completed? by {
      TerminalNoneStopped(src, dest, w, cont, sched);
    }
    assert JobDispatcher(src, dest, cont, jobs, sched) == Returns(ErrorsOf(p.log)) by {
      TerminalNoneStopped(src, dest, w, cont, sched);
      assert Spawned(w) == w;
      assert Capacity(cont, w) >= 0;
      AggregateWholeLog(w, p.log);
    }
    ClaimsExactlyOnce(src, dest, w, cont, sched);
    CopiesExactlyOnce(src, dest, w, cont, sched);
    CopiesMatchClaims(src, dest, w, cont, sched);
  }

  /** Without `cont`, once every worker has returned and at least one of them
      stopped on an error, the dispatcher is blocked for good: no worker is
      left to send the completion it still waits for. */
  lemma DispatchBlocksWithoutCont(src: seq<string>, dest: seq<string>, jobs: Int64, sched: seq<Choice>)
    requires |src| == |dest| && 0 <= jobs
    requires var p := Run(Init(src, dest, WorkerCount(jobs, |src|)), false, sched);
             Terminal(p) && exists i :: 0 <= i < |p.workers| && p.workers[i].Stopped?
    ensures JobDispatcher(src, dest, false, jobs, sched).Receiving?
    ensures JobDispatcher(src, dest, false, jobs, sched).total > 0
  {
    var w := WorkerCount(jobs, |src|);
    var p := Run(Init(src, dest, w), false, sched);
    TerminalWithoutCont(src, dest, w, sched);
    AggregateSpec(w, p.log);
  }

  /** Without `cont`, the reports never outnumber the channel's buffer, so no
      send ever waits for the aggregator. */
  lemma ReportsFitWithoutCont(src: seq<string>, dest: seq<string>, jobs: Int64, sched: seq<Choice>)
    requires |src| == |dest| && 0 <= jobs
    ensures |Run(Init(src, dest, WorkerCount(jobs, |src|)), false, sched).log|
            <= Capacity(false, WorkerCount(jobs, |src|))
  {
    ReportsBoundedWithoutCont(src, dest, WorkerCount(jobs, |src|), sched);
  }
}

=== FILE: jobs.dfy ===
/** The shared job queue and the worker loop `copyRoutine` (cpj.go).

    The mutex around the queue makes every claim atomic, so a run of the pool
    is modelled as one sequence of atomic steps chosen by the scheduler: a
    `Choice` names the worker that moves next and, when that worker is copying,
    what the copy primitive returned. The outcome channel is modelled as an
    append-only log in send order. */
module Jobs {
  import opened Common
  import opened Stacks

  /** `copyJob`: the parallel source and destination stacks. */
  datatype Queue = Queue(src: Stack, dest: Stack)

  /** What one claim under the lock yields. */
  datatype Claim = NoJob | Job(src: string, dest: string)

  /** One claim (cpj.go, inside the lock): both stacks are popped together and
      the popped stacks are stored back. The claim is empty exactly when the
      source stack comes back nil, that is when it held nothing; after such a
      claim the source stack stays nil, so every later claim is empty too. */
  function ClaimJob(q: Queue): (r: (Claim, Queue))
    ensures r.0.NoJob? <==> |Contents(q.src)| == 0
    ensures r.0.NoJob? ==> r.1.src == Nil
    ensures r.0.Job? ==> r.1.src.Stk? && r.1.src.items + [r.0.src] == Contents(q.src)
    ensures |Contents(q.dest)| == 0 ==> r.1.dest == Nil
    ensures |Contents(q.dest)| > 0 ==> |Contents(r.1.dest)| + 1 == |Contents(q.dest)|
    ensures r.0.Job? && |Contents(q.dest)| > 0 ==> Contents(r.1.dest) + [r.0.dest] == Contents(q.dest)
  {
    var (s, srcRest) := Pop(q.src);
    var (d, destRest) := Pop(q.dest);
    (if srcRest.Nil? then NoJob else Job(s, d), Queue(srcRest, destRest))
  }

  /** One (source, destination) job. */
  datatype Pair = Pair(src: string, dest: string)

  /** Where a worker is in its loop. `Completed` follows a completion report;
      `Stopped` follows an error report when errors do not let it continue. */
  datatype Phase = Claiming | Copying(job: Pair) | Completed | Stopped

  /** `copyError`: a report on the outcome channel. A nil `err` with empty
      paths is the completion report of worker `id`. */
  datatype Message = Message(id: int, src: string, dest: string, err: Option<Error>)

  /** One copy a worker performed: the job and what the copy primitive
      returned for it. */
  datatype Attempt = Attempt(job: Pair, outcome: Option<Error>)

  /** The whole pool: queue, one phase per worker id, the channel's log, the
      history of successful claims in claim order, and the history of copies
      in the order they finished. */
  datatype Pool = Pool(queue: Queue, workers: seq<Phase>, log: seq<Message>, claimed: seq<Pair>,
                       attempts: seq<Attempt>)

  /** One scheduling decision: which worker moves, and what its copy returns
      if it is copying (ignored otherwise). */
  datatype Choice = Choice(worker: nat, outcome: Option<Error>)

  /** The pool when the dispatcher has wrapped the two lists in one queue
      (`copyJob`) and started `w` workers: the queue holds both lists as given,
      every worker is about to claim, nothing was sent and nothing claimed. */
  function Init(src: seq<string>, dest: seq<string>, w: nat): (r: Pool)
    ensures Contents(r.queue.src) == src && Contents(r.queue.dest) == dest
    ensures |r.workers| == w && forall i :: 0 <= i < w ==> r.workers[i] == Claiming
    ensures r.log == [] && r.claimed == [] && r.attempts == []
  {
    Pool(Queue(Stk(src), Stk(dest)), seq(w, _ => Claiming), [], [], [])
  }

  /** One atomic step of worker `c.worker`. A claim that finds the queue empty
      sends the completion report and ends the worker; a successful claim
      hands it a job. A failed copy sends one error report naming the worker
      and the job, then the worker goes back to claiming if `cont` holds and
      returns without any completion report otherwise. A successful copy
      reports nothing. Either way the copy is recorded among the attempts.
      A worker that has returned does not move. */
  function Step(p: Pool, cont: bool, c: Choice): (r: Pool)
    ensures |r.workers| == |p.workers|
    ensures forall i :: 0 <= i < |p.workers| && i != c.worker ==> r.workers[i] == p.workers[i]
    ensures p.log <= r.log && |r.log| <= |p.log| + 1
    ensures p.claimed <= r.claimed && |r.claimed| <= |p.claimed| + 1
    ensures p.attempts <= r.attempts && |r.attempts| <= |p.attempts| + 1
    ensures c.worker >= |p.workers| ==> r == p
    ensures c.worker < |p.workers| && p.workers[c.worker] in {Completed, Stopped} ==> r == p
    ensures |r.log| == |p.log| + 1 ==>
              var m := r.log[|p.log|];
              && c.worker < |p.workers| && m.id == c.worker
              && (m.err.None? ==> m.src == "" && m.dest == "" && r.workers[c.worker] == Completed
                                  && p.workers[c.worker] == Claiming)
              && (m.err.Some? ==> p.workers[c.worker] == Copying(Pair(m.src, m.dest))
                                  && r.workers[c.worker] == (if cont then Claiming else Stopped))
    ensures c.worker < |p.workers| && r.workers[c.worker] == Completed && p.workers[c.worker] != Completed ==>
              |r.log| == |p.log| + 1 && r.log[|p.log|].err.None?
    ensures c.worker < |p.workers| && p.workers[c.worker] == Claiming ==>
              && r.attempts == p.attempts
              && (|r.claimed| > |p.claimed| ==> r.workers[c.worker] == Copying(r.claimed[|p.claimed|]))
    ensures c.worker < |p.workers| && p.workers[c.worker].Copying? ==>
              var job := p.workers[c.worker].job;
              && r.queue == p.queue && r.claimed == p.claimed
              && r.workers[c.worker] == (if c.outcome.None? || cont then Claiming else Stopped)
              && r.attempts == p.attempts + [Attempt(job, c.outcome)]
              && r.log == p.log + (if c.outcome.Some? then [Message(c.worker, job.src, job.dest, c.outcome)] else [])
  {
    if c.worker >= |p.workers| then p
    else match p.workers[c.worker]
      case Completed => p
      case Stopped => p
      case Claiming =>
        var (claim, q) := ClaimJob(p.queue);
        if claim.NoJob? then
          Pool(q, p.workers[c.worker := Completed], p.log + [Message(c.worker, "", "", None)],
               p.claimed, p.attempts)
        else
          var job := Pair(claim.src, claim.dest);
          Pool(q, p.workers[c.worker := Copying(job)], p.log, p.claimed + [job], p.attempts)
      case Copying(job) =>
        var attempts := p.attempts + [Attempt(job, c.outcome)];
        match c.outcome
        case None => p.(workers := p.workers[c.worker := Claiming], attempts := attempts)
        case Some(e) =>
          Pool(p.queue, p.workers[c.worker := if cont then Claiming else Stopped],
               p.log + [Message(c.worker, job.src, job.dest, Some(e))], p.claimed, attempts)
  }

  /** The pool after the scheduler has made the choices in `sched`, in order. */
  function Run(p: Pool, cont: bool, sched: seq<Choice>): (r: Pool)
    ensures |r.workers| == |p.workers|
    ensures p.log <= r.log && p.claimed <= r.claimed && p.attempts <= r.attempts
    decreases |sched|
  {
    if |sched| == 0 then p else Run(Step(p, cont, sched[0]), cont, sched[1..])
  }

  /** Every worker has returned: the pool can make no further move. */
  predicate Terminal(p: Pool)
  {
    forall i :: 0 <= i < |p.workers| ==> p.workers[i] in {Completed, Stopped}
  }

  // ---------------------------------------------------------------------------
  // Counting over workers and messages

  /** What is counted over the workers: completed ones, returned ones, or the
      work a worker still has to do (a claim: 1, a copy then a claim: 2). */
  datatype Tally = CountCompleted | CountReturned | PendingWork

  function Score(ph: Phase, t: Tally): nat
  {
    match t
    case CountCompleted => if ph.Completed? then 1 else 0
    case CountReturned => if ph.Completed? || ph.Stopped? then 1 else 0
    case PendingWork =>
      match ph
      case Claiming => 1
      case Copying(_) => 2
      case _ => 0
  }

  function Total(ws: seq<Phase>, t: Tally): nat
  {
    if |ws| == 0 then 0 else Total(ws[..|ws| - 1], t) + Score(ws[|ws| - 1], t)
  }

  /** Number of completion reports (nil error) in a log. */
  function Completions(log: seq<Message>): nat
  {
    if |log| == 0 then 0
    else Completions(log[..|log| - 1]) + (if log[|log| - 1].err.None? then 1 else 0)
  }

  /** The errors of a log, in arrival order. */
  function ErrorsOf(log: seq<Message>): seq<Error>
  {
    if |log| == 0 then []
    else
      var m := log[|log| - 1];
      ErrorsOf(log[..|log| - 1]) + (if m.err.Some? then [m.err.value] else [])
  }

  /** The jobs of a history of copies, in order. */
  function JobsOf(attempts: seq<Attempt>): (jobs: seq<Pair>)
    ensures |jobs| == |attempts|
    ensures forall k :: 0 <= k < |attempts| ==> jobs[k] == attempts[k].job
  {
    if |attempts| == 0 then []
    else JobsOf(attempts[..|attempts| - 1]) + [attempts[|attempts| - 1].job]
  }

  /** The errors the copy primitive returned over a history of copies, in order. */
  function Failures(attempts: seq<Attempt>): seq<Error>
  {
    if |attempts| == 0 then []
    else
      var a := attempts[|attempts| - 1];
      Failures(attempts[..|attempts| - 1]) + (if a.outcome.Some? then [a.outcome.value] else [])
  }

  /** The job a worker holds, if it is copying one. */
  function Holding(ph: Phase): multiset<Pair>
  {
    if ph.Copying? then multiset{ph.job} else multiset{}
  }

  /** The jobs claimed and not yet copied: those the workers are copying. */
  function InFlight(ws: seq<Phase>): multiset<Pair>
  {
    if |ws| == 0 then multiset{} else InFlight(ws[..|ws| - 1]) + Holding(ws[|ws| - 1])
  }

  /** Work left in the pool: three units per queued job (claim, copy, and the
      claim after it, less the one already counted) plus each worker's own. */
  function Measure(p: Pool): nat
  {
    3 * |Contents(p.queue.src)| + Total(p.workers, PendingWork)
  }

  lemma {:induction false} TotalUpdate(ws: seq<Phase>, i: nat, ph: Phase, t: Tally)
    requires i < |ws|
    ensures Total(ws[i := ph], t) == Total(ws, t) - Score(ws[i], t) + Score(ph, t)
    decreases |ws|
  {
    var n := |ws| - 1;
    var ws' := ws[i := ph];
    assert ws'[..n] == if i == n then ws[..n] else ws[..n][i := ph];
    if i < n {
      TotalUpdate(ws[..n], i, ph, t);
    }
  }

  /** A 0/1 count reaches the number of workers only when every worker scores 1. */
  lemma {:induction false} TotalFull(ws: seq<Phase>, t: Tally)
    requires t != PendingWork
    ensures Total(ws, t) <= |ws|
    ensures Total(ws, t) == |ws| ==> forall i :: 0 <= i < |ws| ==> Score(ws[i], t) == 1
    decreases |ws|
  {
    if |ws| > 0 {
      var n := |ws| - 1;
      TotalFull(ws[..n], t);
      if Total(ws, t) == |ws| {
        forall i | 0 <= i < |ws| ensures Score(ws[i], t) == 1 {
          if i < n {
            assert ws[..n][i] == ws[i];
          }
        }
      }
    }
  }

  lemma {:induction false} TotalInit(w: nat, t: Tally)
    ensures Total(seq(w, _ => Claiming), t) == if t == PendingWork then w else 0
    decreases w
  {
    if w > 0 {
      assert seq(w, _ => Claiming)[..w - 1] == seq(w - 1, _ => Claiming);
      TotalInit(w - 1, t);
    }
  }

  lemma {:induction false} InFlightUpdate(ws: seq<Phase>, i: nat, ph: Phase)
    requires i < |ws|
    ensures InFlight(ws[i := ph]) + Holding(ws[i]) == InFlight(ws) + Holding(ph)
    decreases |ws|
  {
    var n := |ws| - 1;
    var ws' := ws[i := ph];
    assert InFlight(ws) == InFlight(ws[..n]) + Holding(ws[n]);
    assert InFlight(ws') == InFlight(ws'[..n]) + Holding(ws'[n]);
    if i < n {
      assert ws'[..n] == ws[..n][i := ph] && ws[..n][i] == ws[i] && ws'[n] == ws[n];
      InFlightUpdate(ws[..n], i, ph);
      MultisetShift(InFlight(ws[..n][i := ph]), InFlight(ws[..n]), Holding(ws[i]), Holding(ph), Holding(ws[n]));
    } else {
      assert ws'[..n] == ws[..n];
    }
  }

  lemma MultisetShift(a: multiset<Pair>, b: multiset<Pair>, x: multiset<Pair>, y: multiset<Pair>, z: multiset<Pair>)
    requires a + x == b + y
    ensures (a + z) + x == (b + z) + y
  {
    calc {
      (a + z) + x;
      (a + x) + z;
      (b + y) + z;
      (b + z) + y;
    }
  }

  /** Nobody holds a job when nobody is copying. */
  lemma {:induction false} InFlightNone(ws: seq<Phase>)
    requires forall i :: 0 <= i < |ws| ==> !ws[i].Copying?
    ensures InFlight(ws) == multiset{}
    decreases |ws|
  {
    if |ws| > 0 {
      InFlightNone(ws[..|ws| - 1]);
    }
  }

  lemma AttemptsAppend(attempts: seq<Attempt>, a: Attempt)
    ensures JobsOf(attempts + [a]) == JobsOf(attempts) + [a.job]
    ensures Failures(attempts + [a]) == Failures(attempts) + (if a.outcome.Some? then [a.outcome.value] else [])
  {
  }

  lemma CompletionsAppend(log: seq<Message>, m: Message)
    ensures Completions(log + [m]) == Completions(log) + (if m.err.None? then 1 else 0)
    ensures ErrorsOf(log + [m]) == ErrorsOf(log) + (if m.err.Some? then [m.err.value] else [])
  {
  }

  // ---------------------------------------------------------------------------
  // The pool invariant

  /** What holds of a pool started from `Init(src, dest, _)`: the queue is the
      untouched first part of the two lists, the claims so far are the rest of
      them taken from the end (last in, first out), a completed worker means
      the queue is empty, and the log holds one completion per completed
      worker (with `cont`, no worker ever stops on an error; without it, every
      returned worker sent exactly one report). When every worker has
      completed, the last report sent was a completion. */
  ghost predicate Inv(p: Pool, src: seq<string>, dest: seq<string>, cont: bool)
  {
    QueueInv(p, src, dest) && ReportInv(p, cont)
  }

  /** What holds of every pool whatever its lists: every claimed job has
      either been copied or is held by the worker copying it, and the errors
      sent are exactly those the copies returned, in the same order. */
  ghost predicate HistoryInv(p: Pool)
  {
    && multiset(p.claimed) == multiset(JobsOf(p.attempts)) + InFlight(p.workers)
    && ErrorsOf(p.log) == Failures(p.attempts)
  }

  /** The queue and claim-history half of `Inv`. */
  ghost predicate QueueInv(p: Pool, src: seq<string>, dest: seq<string>)
  {
    var n := |src|;
    && |dest| == n
    && |p.claimed| <= n
    && Contents(p.queue.src) == src[..n - |p.claimed|]
    && Contents(p.queue.dest) == dest[..n - |p.claimed|]
    && (forall j :: 0 <= j < |p.claimed| ==> p.claimed[j] == Pair(src[n - 1 - j], dest[n - 1 - j]))
    && (forall i :: 0 <= i < |p.workers| && p.workers[i].Completed? ==> |p.claimed| == n)
  }

  /** The worker and report half of `Inv`. */
  ghost predicate ReportInv(p: Pool, cont: bool)
  {
    && (cont ==> forall i :: 0 <= i < |p.workers| ==> !p.workers[i].Stopped?)
    && Completions(p.log) == Total(p.workers, CountCompleted)
    && (!cont ==> |p.log| == Total(p.workers, CountReturned))
    && (Total(p.workers, CountCompleted) == |p.workers| > 0 ==>
          |p.log| > 0 && p.log[|p.log| - 1].err.None?)
  }

  /** Without `cont`: every report names a worker of the pool that has
      returned, and no two reports name the same worker. */
  ghost predicate SendersInv(p: Pool)
  {
    && (forall k :: 0 <= k < |p.log| ==> 0 <= p.log[k].id < |p.workers| && p.workers[p.log[k].id] in {Completed, Stopped})
    && (forall k, l :: 0 <= k < l < |p.log| ==> p.log[k].id != p.log[l].id)
  }

  lemma InitHistory(src: seq<string>, dest: seq<string>, w: nat)
    ensures HistoryInv(Init(src, dest, w))
  {
    InFlightNone(seq(w, _ => Claiming));
  }

  /** Every step keeps the copy history consistent. */
  lemma HistoryStep(p: Pool, cont: bool, c: Choice)
    requires HistoryInv(p)
    ensures HistoryInv(Step(p, cont, c))
  {
    var r := Step(p, cont, c);
    if c.worker < |p.workers| {
      var w := c.worker;
      match p.workers[w]
      case Completed =>
      case Stopped =>
      case Claiming =>
        ClaimHistoryStep(p, cont, c);
      case Copying(job) =>
        CopyHistoryInv(p, c, r);
    }
  }

  lemma ClaimHistoryStep(p: Pool, cont: bool, c: Choice)
    requires HistoryInv(p)
    requires c.worker < |p.workers| && p.workers[c.worker].Claiming?
    ensures HistoryInv(Step(p, cont, c))
  {
    var w := c.worker;
    var r := Step(p, cont, c);
    var (claim, q) := ClaimJob(p.queue);
    if claim.NoJob? {
      assert r == Pool(q, p.workers[w := Completed], p.log + [Message(w, "", "", None)], p.claimed, p.attempts);
      InFlightUpdate(p.workers, w, Completed);
      var held := InFlight(p.workers[w := Completed]);
      assert held + multiset{} == held;
      CompletionsAppend(p.log, Message(w, "", "", None));
      HistoryKept(p, r);
    } else {
      var job := Pair(claim.src, claim.dest);
      assert r == Pool(q, p.workers[w := Copying(job)], p.log, p.claimed + [job], p.attempts);
      ClaimHistory(p.claimed, p.attempts, p.workers, w, job);
    }
  }

  lemma {:induction false} RunHistory(p: Pool, cont: bool, sched: seq<Choice>)
    requires HistoryInv(p)
    ensures HistoryInv(Run(p, cont, sched))
    decreases |sched|
  {
    if |sched| > 0 {
      HistoryStep(p, cont, sched[0]);
      RunHistory(Step(p, cont, sched[0]), cont, sched[1..]);
    }
  }

  /** Without `cont`, every step keeps `SendersInv`: a worker sends only its
      last report, and only a worker that has not returned moves. */
  lemma SendersStep(p: Pool, c: Choice)
    requires SendersInv(p)
    ensures SendersInv(Step(p, false, c))
  {
  }

  lemma {:induction false} RunSenders(p: Pool, sched: seq<Choice>)
    requires SendersInv(p)
    ensures SendersInv(Run(p, false, sched))
    decreases |sched|
  {
    if |sched| > 0 {
      SendersStep(p, sched[0]);
      RunSenders(Step(p, false, sched[0]), sched[1..]);
    }
  }

  lemma InitInv(src: seq<string>, dest: seq<string>, w: nat, cont: bool)
    requires |src| == |dest|
    ensures Inv(Init(src, dest, w), src, dest, cont)
  {
    TotalInit(w, CountCompleted);
    TotalInit(w, CountReturned);
    assert src[..|src|] == src && dest[..|dest|] == dest;
  }

  /** Every step keeps the invariant. */
  lemma StepInv(p: Pool, src: seq<string>, dest: seq<string>, cont: bool, c: Choice)
    requires Inv(p, src, dest, cont)
    ensures Inv(Step(p, cont, c), src, dest, cont)
  {
    if c.worker < |p.workers| {
      match p.workers[c.worker]
      case Completed =>
      case Stopped =>
      case Claiming =>
        if ClaimJob(p.queue).0.NoJob? {
          ClaimEmptyInv(p, src, dest, cont, c);
        } else {
          ClaimJobInv(p, src, dest, cont, c);
        }
      case Copying(job) =>
        CopyInv(p, src, dest, cont, c);
    }
  }

  lemma ClaimEmptyInv(p: Pool, src: seq<string>, dest: seq<string>, cont: bool, c: Choice)
    requires Inv(p, src, dest, cont)
    requires c.worker < |p.workers| && p.workers[c.worker].Claiming?
    requires ClaimJob(p.queue).0.NoJob?
    ensures Inv(Step(p, cont, c), src, dest, cont)
  {
    var w := c.worker;
    var r := Step(p, cont, c);
    assert r.workers == p.workers[w := Completed];
    assert r.log == p.log + [Message(w, "", "", None)];
    assert |p.claimed| == |src|;
    TotalUpdate(p.workers, w, Completed, CountCompleted);
    TotalUpdate(p.workers, w, Completed, CountReturned);
    CompletionsAppend(p.log, Message(w, "", "", None));
    assert QueueInv(r, src, dest);
  }

  lemma ClaimJobInv(p: Pool, src: seq<string>, dest: seq<string>, cont: bool, c: Choice)
    requires Inv(p, src, dest, cont)
    requires c.worker < |p.workers| && p.workers[c.worker].Claiming?
    requires ClaimJob(p.queue).0.Job?
    ensures Inv(Step(p, cont, c), src, dest, cont)
  {
    var w := c.worker;
    var r := Step(p, cont, c);
    var (claim, q) := ClaimJob(p.queue);
    var job := Pair(claim.src, claim.dest);
    assert r == Pool(q, p.workers[w := Copying(job)], p.log, p.claimed + [job], p.attempts);
    var k := |src| - |p.claimed|;
    assert k > 0;
    assert src[..k] == src[..k - 1] + [src[k - 1]];
    assert dest[..k] == dest[..k - 1] + [dest[k - 1]];
    assert Contents(q.src) == src[..k - 1] && claim.src == src[k - 1];
    assert Contents(q.dest) == dest[..k - 1] && claim.dest == dest[k - 1];
    assert QueueInv(r, src, dest);
    TotalUpdate(p.workers, w, Copying(job), CountCompleted);
    TotalUpdate(p.workers, w, Copying(job), CountReturned);
    TotalFull(r.workers, CountCompleted);
    assert Score(r.workers[w], CountCompleted) == 0;
  }

  /** A move that changes neither the claims, nor the copies, nor the jobs in
      hand, nor the errors sent keeps the copy history consistent. */
  lemma HistoryKept(p: Pool, r: Pool)
    requires HistoryInv(p)
    requires r.claimed == p.claimed && r.attempts == p.attempts
    requires InFlight(r.workers) == InFlight(p.workers) && ErrorsOf(r.log) == ErrorsOf(p.log)
    ensures HistoryInv(r)
  {
  }

  /** A successful claim puts the job both in the claims and in the claiming
      worker's hands. */
  lemma ClaimHistory(claimed: seq<Pair>, attempts: seq<Attempt>, ws: seq<Phase>, w: nat, job: Pair)
    requires w < |ws| && ws[w].Claiming?
    requires multiset(claimed) == multiset(JobsOf(attempts)) + InFlight(ws)
    ensures multiset(claimed + [job]) == multiset(JobsOf(attempts)) + InFlight(ws[w := Copying(job)])
  {
    InFlightUpdate(ws, w, Copying(job));
    MultisetMove(claimed + [job], JobsOf(attempts), job, InFlight(ws) + multiset{job}, InFlight(ws));
    MultisetAdd(claimed, job, multiset(JobsOf(attempts)) + InFlight(ws));
  }

  lemma MultisetAdd(all: seq<Pair>, job: Pair, m: multiset<Pair>)
    requires multiset(all) == m
    ensures multiset(all + [job]) == m + multiset{job}
  {
  }

  lemma CopyInv(p: Pool, src: seq<string>, dest: seq<string>, cont: bool, c: Choice)
    requires Inv(p, src, dest, cont)
    requires c.worker < |p.workers| && p.workers[c.worker].Copying?
    ensures Inv(Step(p, cont, c), src, dest, cont)
  {
    var w := c.worker;
    var job := p.workers[w].job;
    var ph := if c.outcome.None? || cont then Claiming else Stopped;
    var log := if c.outcome.None? then p.log else p.log + [Message(w, job.src, job.dest, c.outcome)];
    var r := Pool(p.queue, p.workers[w := ph], log, p.claimed, p.attempts + [Attempt(job, c.outcome)]);
    assert Step(p, cont, c) == r;
    assert QueueInv(r, src, dest);
    CopyReportInv(p, cont, c, r);
  }

  lemma CopyHistoryInv(p: Pool, c: Choice, r: Pool)
    requires HistoryInv(p)
    requires c.worker < |p.workers| && p.workers[c.worker].Copying?
    requires var w := c.worker;
             var job := p.workers[w].job;
             && |r.workers| == |p.workers|
             && r.workers == p.workers[w := r.workers[w]] && !r.workers[w].Copying?
             && r.log == (if c.outcome.None? then p.log else p.log + [Message(w, job.src, job.dest, c.outcome)])
             && r.claimed == p.claimed && r.attempts == p.attempts + [Attempt(job, c.outcome)]
    ensures HistoryInv(r)
  {
    var w := c.worker;
    var job := p.workers[w].job;
    CopyHistoryJobs(p.claimed, p.attempts, p.workers, w, r.workers[w], c.outcome);
    AttemptsAppend(p.attempts, Attempt(job, c.outcome));
    if c.outcome.Some? {
      CompletionsAppend(p.log, Message(w, job.src, job.dest, c.outcome));
    }
  }

  /** A finished copy moves its job from the workers' hands to the history. */
  lemma CopyHistoryJobs(claimed: seq<Pair>, attempts: seq<Attempt>, ws: seq<Phase>, w: nat, ph: Phase,
                        outcome: Option<Error>)
    requires w < |ws| && ws[w].Copying? && !ph.Copying?
    requires multiset(claimed) == multiset(JobsOf(attempts)) + InFlight(ws)
    ensures multiset(claimed) == multiset(JobsOf(attempts + [Attempt(ws[w].job, outcome)])) + InFlight(ws[w := ph])
  {
    var job := ws[w].job;
    InFlightUpdate(ws, w, ph);
    AttemptsAppend(attempts, Attempt(job, outcome));
    MultisetMove(claimed, JobsOf(attempts), job, InFlight(ws), InFlight(ws[w := ph]));
  }

  lemma MultisetMove(all: seq<Pair>, done: seq<Pair>, job: Pair, held: multiset<Pair>, rest: multiset<Pair>)
    requires multiset(all) == multiset(done) + held
    requires rest + multiset{job} == held
    ensures multiset(all) == multiset(done + [job]) + rest
  {
    assert multiset(done + [job]) == multiset(done) + multiset{job};
  }

  lemma CopyReportInv(p: Pool, cont: bool, c: Choice, r: Pool)
    requires ReportInv(p, cont)
    requires c.worker < |p.workers| && p.workers[c.worker].Copying?
    requires var w := c.worker;
             var job := p.workers[w].job;
             r == Pool(p.queue, p.workers[w := if c.outcome.None? || cont then Claiming else Stopped],
                       if c.outcome.None? then p.log else p.log + [Message(w, job.src, job.dest, c.outcome)],
                       p.claimed, p.attempts + [Attempt(job, c.outcome)])
    ensures ReportInv(r, cont)
  {
    var w := c.worker;
    var job := p.workers[w].job;
    var ph := if c.outcome.None? || cont then Claiming else Stopped;
    TotalUpdate(p.workers, w, ph, CountCompleted);
    TotalUpdate(p.workers, w, ph, CountReturned);
    if c.outcome.Some? {
      CompletionsAppend(p.log, Message(w, job.src, job.dest, c.outcome));
    }
    TotalFull(r.workers, CountCompleted);
    assert Score(r.workers[w], CountCompleted) == 0;
    assert ReportInv(r, cont);
  }

  lemma {:induction false} RunInv(p: Pool, src: seq<string>, dest: seq<string>, cont: bool, sched: seq<Choice>)
    requires Inv(p, src, dest, cont)
    ensures Inv(Run(p, cont, sched), src, dest, cont)
    decreases |sched|
  {
    if |sched| > 0 {
      StepInv(p, src, dest, cont, sched[0]);
      RunInv(Step(p, cont, sched[0]), src, dest, cont, sched[1..]);
    }
  }

  // ---------------------------------------------------------------------------
  // Properties of runs

  /** Claims never repeat or skip: after any schedule, the claims so far are
      the last `|claimed|` pairs in reverse order (the queue is a stack), the
      queue still holds exactly the pairs before them, and the two stacks have
      the same length. */
  lemma ClaimsAreLifo(src: seq<string>, dest: seq<string>, w: nat, cont: bool, sched: seq<Choice>)
    requires |src| == |dest|
    ensures var p := Run(Init(src, dest, w), cont, sched);
            && |p.claimed| <= |src|
            && (forall j :: 0 <= j < |p.claimed| ==>
                  p.claimed[j] == Pair(src[|src| - 1 - j], dest[|src| - 1 - j]))
            && Contents(p.queue.src) == src[..|src| - |p.claimed|]
            && Contents(p.queue.dest) == dest[..|src| - |p.claimed|]
  {
    InitInv(src, dest, w, cont);
    RunInv(Init(src, dest, w), src, dest, cont, sched);
  }

  /** Every pair is claimed exactly once: in either mode, as soon as some
      worker has found the queue empty (with `cont`, every worker of a
      finished pool has), exactly `|src|` claims succeeded and pair `i` was
      the claim made `|src| - 1 - i`-th. */
  lemma ClaimsExactlyOnce(src: seq<string>, dest: seq<string>, w: nat, cont: bool, sched: seq<Choice>)
    requires |src| == |dest|
    requires exists i :: 0 <= i < w && Run(Init(src, dest, w), cont, sched).workers[i].Completed?
    ensures var p := Run(Init(src, dest, w), cont, sched);
            && |p.claimed| == |src|
            && (forall i :: 0 <= i < |src| ==> p.claimed[|src| - 1 - i] == Pair(src[i], dest[i]))
            && Contents(p.queue.src) == []
  {
    var p := Run(Init(src, dest, w), cont, sched);
    assert QueueInv(p, src, dest) by {
      InitInv(src, dest, w, cont);
      RunInv(Init(src, dest, w), src, dest, cont, sched);
    }
    forall i | 0 <= i < |src| ensures p.claimed[|src| - 1 - i] == Pair(src[i], dest[i]) {
      var j := |src| - 1 - i;
      assert p.claimed[j] == Pair(src[|src| - 1 - j], dest[|src| - 1 - j]);
    }
  }

  /** Without `cont`, each worker sends at most one report, and only as it
      returns: every report names a worker that has returned, no two reports
      name the same worker, and so a channel with room for one report per
      worker never fills. */
  lemma ReportsBoundedWithoutCont(src: seq<string>, dest: seq<string>, w: nat, sched: seq<Choice>)
    requires |src| == |dest|
    ensures var p := Run(Init(src, dest, w), false, sched);
            && |p.log| <= w
            && (forall k :: 0 <= k < |p.log| ==> 0 <= p.log[k].id < w && p.workers[p.log[k].id] in {Completed, Stopped})
            && (forall k, l :: 0 <= k < l < |p.log| ==> p.log[k].id != p.log[l].id)
  {
    var p := Run(Init(src, dest, w), false, sched);
    InitInv(src, dest, w, false);
    RunInv(Init(src, dest, w), src, dest, false, sched);
    TotalFull(p.workers, CountReturned);
    RunSenders(Init(src, dest, w), sched);
  }

  /** Over any schedule, in either mode, the errors sent are exactly the
      errors the copies returned, in the order the copies finished; every copy
      was of a claimed job, and no job was copied more often than it was
      claimed. Once every worker has returned, the jobs copied are exactly the
      jobs claimed. */
  lemma CopiesMatchClaims(src: seq<string>, dest: seq<string>, w: nat, cont: bool, sched: seq<Choice>)
    ensures var p := Run(Init(src, dest, w), cont, sched);
            && ErrorsOf(p.log) == Failures(p.attempts)
            && multiset(JobsOf(p.attempts)) <= multiset(p.claimed)
            && (Terminal(p) ==> multiset(JobsOf(p.attempts)) == multiset(p.claimed))
  {
    var p := Run(Init(src, dest, w), cont, sched);
    InitHistory(src, dest, w);
    RunHistory(Init(src, dest, w), cont, sched);
    if Terminal(p) {
      InFlightNone(p.workers);
    }
  }

  /** The jobs of two parallel lists, in list order. */
  function Pairs(src: seq<string>, dest: seq<string>): (r: seq<Pair>)
    requires |src| == |dest|
    ensures |r| == |src| && forall i :: 0 <= i < |src| ==> r[i] == Pair(src[i], dest[i])
  {
    seq(|src|, i requires 0 <= i < |src| => Pair(src[i], dest[i]))
  }

  /** A sequence and its reverse hold the same elements. */
  lemma {:induction false} ReverseMultiset(a: seq<Pair>, b: seq<Pair>)
    requires |a| == |b|
    requires forall j :: 0 <= j < |a| ==> a[j] == b[|b| - 1 - j]
    ensures multiset(a) == multiset(b)
    decreases |a|
  {
    if |a| > 0 {
      var n := |a| - 1;
      ReverseMultiset(a[..n], b[1..]);
      assert a == a[..n] + [a[n]];
      assert b == [b[0]] + b[1..];
    }
  }

  /** Every job is copied exactly once: in either mode, once every worker has
      returned and some worker found the queue empty (with `cont`, at least
      one worker suffices), each pair of the two lists has been copied as
      many times as it occurs in them, and there were exactly `|src|` copies. */
  lemma CopiesExactlyOnce(src: seq<string>, dest: seq<string>, w: nat, cont: bool, sched: seq<Choice>)
    requires |src| == |dest|
    requires Terminal(Run(Init(src, dest, w), cont, sched))
    requires exists i :: 0 <= i < w && Run(Init(src, dest, w), cont, sched).workers[i].Completed?
    ensures var p := Run(Init(src, dest, w), cont, sched);
            && |p.attempts| == |src|
            && multiset(JobsOf(p.attempts)) == multiset(Pairs(src, dest))
  {
    var p := Run(Init(src, dest, w), cont, sched);
    var pairs := Pairs(src, dest);
    ClaimsAreLifo(src, dest, w, cont, sched);
    ClaimsExactlyOnce(src, dest, w, cont, sched);
    assert forall j :: 0 <= j < |p.claimed| ==> p.claimed[j] == pairs[|pairs| - 1 - j];
    ReverseMultiset(p.claimed, pairs);
    CopiesMatchClaims(src, dest, w, cont, sched);
    SameElements(JobsOf(p.attempts), p.claimed, pairs);
  }

  lemma SameElements(a: seq<Pair>, b: seq<Pair>, c: seq<Pair>)
    requires multiset(a) == multiset(b) && multiset(b) == multiset(c)
    ensures |a| == |c| && multiset(a) == multiset(c)
  {
    assert |multiset(a)| == |a| && |multiset(c)| == |c|;
  }

  /** Progress: a step of a worker that has not returned strictly lowers the
      remaining work, so no schedule makes more than `3 * |src| + w` moves
      that change anything, and a scheduler that keeps choosing live workers
      brings the pool to a terminal state. */
  lemma StepProgress(p: Pool, src: seq<string>, dest: seq<string>, cont: bool, c: Choice)
    requires Inv(p, src, dest, cont)
    requires c.worker < |p.workers| && !(p.workers[c.worker] in {Completed, Stopped})
    ensures Measure(Step(p, cont, c)) < Measure(p)
  {
    var w := c.worker;
    var r := Step(p, cont, c);
    match p.workers[w]
    case Claiming =>
      var (claim, q) := ClaimJob(p.queue);
      TotalUpdate(p.workers, w, r.workers[w], PendingWork);
    case Copying(job) =>
      TotalUpdate(p.workers, w, r.workers[w], PendingWork);
  }

  /** The number of choices in `sched` that change the pool. */
  function EffectiveSteps(p: Pool, cont: bool, sched: seq<Choice>): nat
    decreases |sched|
  {
    if |sched| == 0 then 0
    else
      var q := Step(p, cont, sched[0]);
      (if q == p then 0 else 1) + EffectiveSteps(q, cont, sched[1..])
  }

  /** No schedule makes more moves that change the pool than the work left. */
  lemma {:induction false} EffectiveStepsBound(p: Pool, src: seq<string>, dest: seq<string>, cont: bool, sched: seq<Choice>)
    requires Inv(p, src, dest, cont)
    ensures EffectiveSteps(p, cont, sched) <= Measure(p)
    decreases |sched|
  {
    if |sched| > 0 {
      var q := Step(p, cont, sched[0]);
      StepInv(p, src, dest, cont, sched[0]);
      EffectiveStepsBound(q, src, dest, cont, sched[1..]);
      if q != p {
        StepProgress(p, src, dest, cont, sched[0]);
      }
    }
  }

  /** From the start, any schedule makes at most `3 * |src| + w` moves that
      change the pool, so a scheduler that keeps choosing workers that have
      not returned brings the pool to a terminal state within that many. */
  lemma RunEffectiveSteps(src: seq<string>, dest: seq<string>, w: nat, cont: bool, sched: seq<Choice>)
    requires |src| == |dest|
    ensures EffectiveSteps(Init(src, dest, w), cont, sched) <= 3 * |src| + w
  {
    InitInv(src, dest, w, cont);
    InitMeasure(src, dest, w);
    EffectiveStepsBound(Init(src, dest, w), src, dest, cont, sched);
  }

  lemma InitMeasure(src: seq<string>, dest: seq<string>, w: nat)
    ensures Measure(Init(src, dest, w)) == 3 * |src| + w
  {
    TotalInit(w, PendingWork);
  }

  /** With `cont`, a stopped pool of at least one worker has sent exactly one
      completion per worker, the last report is a completion, and every pair
      was claimed. */
  lemma TerminalWithCont(src: seq<string>, dest: seq<string>, w: nat, sched: seq<Choice>)
    requires |src| == |dest| && w > 0
    requires Terminal(Run(Init(src, dest, w), true, sched))
    ensures var p := Run(Init(src, dest, w), true, sched);
            && (forall i :: 0 <= i < w ==> p.workers[i].Completed?)
            && Completions(p.log) == w
            && |p.log| > 0 && p.log[|p.log| - 1].err.None?
  {
    var p := Run(Init(src, dest, w), true, sched);
    InitInv(src, dest, w, true);
    RunInv(Init(src, dest, w), src, dest, true, sched);
    TerminalNoneStopped(src, dest, w, true, sched);
  }

  /** In either mode, a finished pool of at least one worker in which no
      worker stopped on an error has sent one completion per worker, and the
      last report is a completion. */
  lemma TerminalNoneStopped(src: seq<string>, dest: seq<string>, w: nat, cont: bool, sched: seq<Choice>)
    requires |src| == |dest| && w > 0
    requires var p := Run(Init(src, dest, w), cont, sched);
             Terminal(p) && forall i :: 0 <= i < w ==> !p.workers[i].Stopped?
    ensures var p := Run(Init(src, dest, w), cont, sched);
            && (forall i :: 0 <= i < w ==> p.workers[i].Completed?)
            && Completions(p.log) == w
            && |p.log| > 0 && p.log[|p.log| - 1].err.None?
  {
    var p := Run(Init(src, dest, w), cont, sched);
    InitInv(src, dest, w, cont);
    RunInv(Init(src, dest, w), src, dest, cont, sched);
    assert forall i :: 0 <= i < w ==> p.workers[i].Completed?;
    TotalAllCompleted(p.workers);
  }

  lemma {:induction false} TotalAllCompleted(ws: seq<Phase>)
    requires forall i :: 0 <= i < |ws| ==> ws[i].Completed?
    ensures Total(ws, CountCompleted) == |ws|
    decreases |ws|
  {
    if |ws| > 0 {
      TotalAllCompleted(ws[..|ws| - 1]);
    }
  }

  /** Without `cont`, a stopped pool in which some worker stopped on an error
      has sent fewer completions than there are workers. */
  lemma TerminalWithoutCont(src: seq<string>, dest: seq<string>, w: nat, sched: seq<Choice>)
    requires |src| == |dest|
    requires exists i :: 0 <= i < w && Run(Init(src, dest, w), false, sched).workers[i].Stopped?
    ensures Completions(Run(Init(src, dest, w), false, sched).log) < w
  {
    var p := Run(Init(src, dest, w), false, sched);
    InitInv(src, dest, w, false);
    RunInv(Init(src, dest, w), src, dest, false, sched);
    TotalFull(p.workers, CountCompleted);
  }
}

=== FILE: parallelcopy.dfy ===
/** `parallelCopy` (cpj.go): the setup checks that decide between a single
    copy, an error and a tree copy, and the tree copy that walks the source,
    maps the paths and hands both lists to the dispatcher. Path resolution,
    `os.Lstat` and the single-file copy are collaborators whose results are
    parameters here. */
module ParallelCopy {
  import opened Common
  import opened Stacks
  import opened Paths
  import opened Walk
  import opened Dispatch
  import Jobs

  const ErrNotRecursive := Error("source is a directory, but you did not provide -recurse")
  const ErrDestNotDir := Error("source is a directory but destination is not")

  /** What the setup checks decide. */
  datatype Plan = Abort(err: Error) | CopyOne | CopyTree(srcAbs: string, destAbs: string)

  /** The checks in order: resolve and stat the source; a non-directory source
      is copied directly; a directory needs `recurse`; then resolve and stat the
      destination, which must be a directory. */
  function Decide(srcAbs: Result<string>, srcIsDir: Result<bool>, recurse: bool,
                  destAbs: Result<string>, destIsDir: Result<bool>): (r: Plan)
    ensures r.CopyOne? <==> srcAbs.Ok? && srcIsDir == Ok(false)
    ensures r.CopyTree? <==>
              srcAbs.Ok? && srcIsDir == Ok(true) && recurse && destAbs.Ok? && destIsDir == Ok(true)
    ensures r.CopyTree? ==> r == CopyTree(srcAbs.value, destAbs.value)
    ensures srcAbs.Fail? ==> r == Abort(srcAbs.err)
    ensures srcAbs.Ok? && srcIsDir.Fail? ==> r == Abort(srcIsDir.err)
    ensures srcAbs.Ok? && srcIsDir == Ok(true) && !recurse ==> r == Abort(ErrNotRecursive)
    ensures srcAbs.Ok? && srcIsDir == Ok(true) && recurse && destAbs.Fail? ==> r == Abort(destAbs.err)
    ensures srcAbs.Ok? && srcIsDir == Ok(true) && recurse && destAbs.Ok? && destIsDir.Fail? ==>
              r == Abort(destIsDir.err)
    ensures srcAbs.Ok? && srcIsDir == Ok(true) && recurse && destAbs.Ok? && destIsDir == Ok(false) ==>
              r == Abort(ErrDestNotDir)
  {
    if srcAbs.Fail? then Abort(srcAbs.err)
    else if srcIsDir.Fail? then Abort(srcIsDir.err)
    else if !srcIsDir.value then CopyOne
    else if !recurse then Abort(ErrNotRecursive)
    else if destAbs.Fail? then Abort(destAbs.err)
    else if destIsDir.Fail? then Abort(destIsDir.err)
    else if !destIsDir.value then Abort(ErrDestNotDir)
    else CopyTree(srcAbs.value, destAbs.value)
  }

  /** The destination is looked at only for a recursive copy of a directory:
      otherwise the decision is the same whatever resolving or statting the
      destination would give. */
  lemma DestinationIgnoredUnlessRecursing(srcAbs: Result<string>, srcIsDir: Result<bool>, recurse: bool,
                                          d1: Result<string>, i1: Result<bool>,
                                          d2: Result<string>, i2: Result<bool>)
    requires !(srcAbs.Ok? && srcIsDir == Ok(true) && recurse)
    ensures Decide(srcAbs, srcIsDir, recurse, d1, i1) == Decide(srcAbs, srcIsDir, recurse, d2, i2)
  {
  }

  /** How a call of `parallelCopy` ends: with an error value (nil or not), or
      not at all because the dispatcher panicked or is still receiving. */
  datatype CallOutcome = ReturnsErr(err: Option<Error>) | DispatchPanics | DispatchWaiting(total: int, errs: seq<Error>)

  /** `parallelCopy`. `singleCopy` is what the copy primitive returns for a
      non-directory source; `visits` is what both walks of the source tree see;
      `sched` drives the workers. A tree copy that returns always returns nil:
      the dispatcher's error list is dropped. */
  method ParallelCopy(srcAbs: Result<string>, srcIsDir: Result<bool>, recurse: bool,
                      destAbs: Result<string>, destIsDir: Result<bool>,
                      singleCopy: Option<Error>, visits: seq<Entry>,
                      cont: bool, jobs: Int64, sched: seq<Jobs.Choice>)
    returns (srcFiles: seq<string>, destFiles: seq<string>, outcome: CallOutcome)
    ensures var plan := Decide(srcAbs, srcIsDir, recurse, destAbs, destIsDir);
            && (plan.Abort? ==> outcome == ReturnsErr(Some(plan.err)))
            && (plan.CopyOne? ==> outcome == ReturnsErr(singleCopy))
            && (plan.CopyTree? ==>
                  && srcFiles == FilesOf(visits)
                  && |destFiles| == |srcFiles|
                  && (forall i :: 0 <= i < |srcFiles| ==>
                        destFiles[i] == MapPath(srcFiles[i], NormalizeRoot(plan.srcAbs), NormalizeRoot(plan.destAbs)))
                  && (outcome.ReturnsErr? <==> JobDispatcher(srcFiles, destFiles, cont, jobs, sched).Returns?)
                  && (outcome.ReturnsErr? ==> outcome.err == None)
                  && (outcome.DispatchPanics? <==> JobDispatcher(srcFiles, destFiles, cont, jobs, sched).MakeChanPanics?)
                  && (|srcFiles| < TwoPow62 ==>
                        (outcome.DispatchPanics? <==> jobs < 0 && (!cont || -TwoPow62 <= jobs))))
  {
    srcFiles, destFiles := [], [];
    var plan := Decide(srcAbs, srcIsDir, recurse, destAbs, destIsDir);
    match plan
    case Abort(e) =>
      outcome := ReturnsErr(Some(e));
    case CopyOne =>
      outcome := ReturnsErr(singleCopy);
    case CopyTree(sAbs, dAbs) =>
      var count := CountFiles(visits);
      srcFiles := RecurseFileTree([], visits);
      var numFiles;
      destFiles, numFiles := MapPaths(srcFiles, count, sAbs, dAbs);
      var r := JobDispatcher(srcFiles, destFiles, cont, jobs, sched);
      match r
      case Returns(_) => outcome := ReturnsErr(None);
      case MakeChanPanics => outcome := DispatchPanics;
      case Receiving(total, errs) => outcome := DispatchWaiting(total, errs);
  }
}

=== FILE: paths.dfy ===
/** The path mapper inside `parallelCopy` (cpj.go): both roots get a trailing
    `/`, and every source path has the source root stripped and the
    destination root prepended, index by index. */
module Paths {
  import opened Common

  /** `strings.HasPrefix`. */
  predicate HasPrefix(s: string, prefix: string)
  {
    |prefix| <= |s| && s[..|prefix|] == prefix
  }

  /** `strings.HasSuffix`. */
  predicate HasSuffix(s: string, suffix: string)
  {
    |suffix| <= |s| && s[|s| - |suffix|..] == suffix
  }

  /** `strings.TrimPrefix`: `s` without a leading `prefix`, or `s` itself when it
      does not start with `prefix`. */
  function TrimPrefix(s: string, prefix: string): (r: string)
    ensures HasPrefix(s, prefix) ==> prefix + r == s
    ensures !HasPrefix(s, prefix) ==> r == s
  {
    if HasPrefix(s, prefix) then s[|prefix|..] else s
  }

  /** A root as the mapper uses it: `/` is appended unless the root already
      ends with one. A root ending in several `/` keeps them all. */
  function NormalizeRoot(root: string): (r: string)
    ensures HasSuffix(r, "/")
    ensures HasPrefix(r, root) && |r| <= |root| + 1
    ensures HasSuffix(root, "/") ==> r == root
  {
    if HasSuffix(root, "/") then root else root + "/"
  }

  /** Where one source file goes, given the normalised roots. */
  function MapPath(path: string, srcRoot: string, destRoot: string): string
  {
    destRoot + TrimPrefix(path, srcRoot)
  }

  /** Go's built-in `copy(dst, src)`: overwrites the first `min(len(dst),
      len(src))` elements of `dst` and reports how many it copied. */
  function CopySlice(dst: seq<string>, src: seq<string>): (r: (seq<string>, nat))
    ensures r.1 == Min(|dst|, |src|)
    ensures |r.0| == |dst|
    ensures forall i :: 0 <= i < r.1 ==> r.0[i] == src[i]
    ensures forall i :: r.1 <= i < |dst| ==> r.0[i] == dst[i]
  {
    var n := Min(|dst|, |src|);
    (src[..n] + dst[n..], n)
  }

  /** The destination list of `parallelCopy`: a list of `count` entries (the
      number of files the counting walk saw) receives a copy of the source
      list, then loses the source root and gains the destination root entry by
      entry. When the two walks agree (`count == |srcFiles|`) entry `i` is the
      mapping of source entry `i`; entries beyond the source list (a walk that
      saw fewer files) map the empty string and so become the bare destination
      root. */
  method MapPaths(srcFiles: seq<string>, count: nat, srcAbs: string, destAbs: string)
    returns (destFiles: seq<string>, numFiles: nat)
    ensures numFiles == Min(count, |srcFiles|)
    ensures |destFiles| == count
    ensures forall i :: 0 <= i < numFiles ==>
              destFiles[i] == MapPath(srcFiles[i], NormalizeRoot(srcAbs), NormalizeRoot(destAbs))
    ensures forall i :: numFiles <= i < count ==> destFiles[i] == NormalizeRoot(destAbs)
  {
    destFiles := seq(count, _ => "");
    var copiedPair := CopySlice(destFiles, srcFiles);
    destFiles, numFiles := copiedPair.0, copiedPair.1;

    var srcRoot := srcAbs;
    if !HasSuffix(srcRoot, "/") {
      srcRoot := srcRoot + "/";
    }
    var copied := destFiles;
    var i := 0;
    while i < |destFiles|
      invariant 0 <= i <= |destFiles| == count
      invariant forall j :: 0 <= j < i ==> destFiles[j] == TrimPrefix(copied[j], srcRoot)
      invariant forall j :: i <= j < count ==> destFiles[j] == copied[j]
    {
      destFiles := destFiles[i := TrimPrefix(destFiles[i], srcRoot)];
      i := i + 1;
    }

    var destRoot := destAbs;
    if !HasSuffix(destRoot, "/") {
      destRoot := destRoot + "/";
    }
    var trimmed := destFiles;
    i := 0;
    while i < |destFiles|
      invariant 0 <= i <= |destFiles| == count
      invariant forall j :: 0 <= j < i ==> destFiles[j] == destRoot + trimmed[j]
      invariant forall j :: i <= j < count ==> destFiles[j] == trimmed[j]
    {
      destFiles := destFiles[i := destRoot + destFiles[i]];
      i := i + 1;
    }
  }

  /** Normalising twice is normalising once. */
  lemma NormalizeIdempotent(root: string)
    ensures NormalizeRoot(NormalizeRoot(root)) == NormalizeRoot(root)
  {
  }

  /** A root supplied without its trailing `/` and the same root supplied with
      it normalise to the same string, so the mapping does not depend on how
      the caller spelled the roots. */
  lemma SeparatorIndependent(srcAbs: string, destAbs: string, path: string)
    requires !HasSuffix(srcAbs, "/") && !HasSuffix(destAbs, "/")
    ensures NormalizeRoot(srcAbs + "/") == NormalizeRoot(srcAbs)
    ensures MapPath(path, NormalizeRoot(srcAbs + "/"), NormalizeRoot(destAbs + "/"))
         == MapPath(path, NormalizeRoot(srcAbs), NormalizeRoot(destAbs))
  {
  }

  /** Round trip: for a path under the source root, the destination path with
      the destination root removed is the path relative to the source root,
      and prefixing that with the source root gives the path back. */
  lemma MapPathRoundTrip(path: string, srcAbs: string, destAbs: string)
    requires HasPrefix(path, NormalizeRoot(srcAbs))
    ensures var d := MapPath(path, NormalizeRoot(srcAbs), NormalizeRoot(destAbs));
            HasPrefix(d, NormalizeRoot(destAbs))
            && TrimPrefix(d, NormalizeRoot(destAbs)) == TrimPrefix(path, NormalizeRoot(srcAbs))
            && NormalizeRoot(srcAbs) + TrimPrefix(d, NormalizeRoot(destAbs)) == path
  {
  }

  /** Distinct source files under the source root get distinct destinations. */
  lemma MapPathInjective(p: string, q: string, srcAbs: string, destAbs: string)
    requires HasPrefix(p, NormalizeRoot(srcAbs)) && HasPrefix(q, NormalizeRoot(srcAbs))
    requires MapPath(p, NormalizeRoot(srcAbs), NormalizeRoot(destAbs))
          == MapPath(q, NormalizeRoot(srcAbs), NormalizeRoot(destAbs))
    ensures p == q
  {
    MapPathRoundTrip(p, srcAbs, destAbs);
    MapPathRoundTrip(q, srcAbs, destAbs);
  }
}

=== FILE: stacks.dfy ===
/** The string stack of package `stack` (stack/stack.go).

    A Go `*stack.Stack` is either the nil pointer or a pointer to a slice of
    strings. Slices are modelled by their contents only: a non-nil pointer to a
    nil slice behaves exactly like a pointer to an empty slice, so both are
    `Stk([])`. Backing-array sharing between slices is not modelled. */
module Stacks {

  datatype Stack = Nil | Stk(items: seq<string>)

  /** The contents a stack holds; the nil pointer holds nothing. */
  function Contents(s: Stack): seq<string>
  {
    if s.Nil? then [] else s.items
  }

  /** `Push`: appends `val` to the slice the pointer refers to and returns that
      same pointer. A nil pointer is reported and returned unchanged (the source
      tests for nil twice; the second test can never succeed). */
  function Push(stk: Stack, val: string): (r: Stack)
    ensures r.Nil? <==> stk.Nil?
    ensures stk.Stk? ==>
              (|r.items| == |stk.items| + 1
               && r.items[..|stk.items|] == stk.items
               && r.items[|stk.items|] == val)
  {
    match stk
    case Nil => Nil
    case Stk(items) => Stk(items + [val])
  }

  /** `Pop`: the last element and a pointer to the slice without it. A nil or
      empty stack yields `""` and the nil pointer; a one-element stack yields its
      element and a NON-nil empty stack. The input itself is not changed. */
  function Pop(stk: Stack): (r: (string, Stack))
    ensures |Contents(stk)| == 0 <==> r == ("", Nil)
    ensures |Contents(stk)| > 0 ==> r.1.Stk? && r.1.items + [r.0] == stk.items
  {
    if stk.Nil? || |stk.items| == 0 then ("", Nil)
    else
      var n := |stk.items| - 1;
      (stk.items[n], Stk(stk.items[..n]))
  }

  /** `Merge`: pushes every element of `src`, in order, onto `dest` and returns
      `dest`. The result is the state of the stack `dest` points to afterwards.
      The loop ranges over `*src`, so a nil `src` would be dereferenced; the
      source gives it no meaning and neither does this model. Because Go
      evaluates the range expression once, `Merge(s, s)` doubles `s`, which
      the contract below covers when `dest == src`. */
  method Merge(dest: Stack, src: Stack) returns (r: Stack)
    requires src.Stk?
    ensures dest.Nil? ==> r == Nil
    ensures dest.Stk? ==> r.Stk? && r.items == dest.items + src.items
  {
    r := dest;
    for i := 0 to |src.items|
      invariant dest.Nil? ==> r == Nil
      invariant dest.Stk? ==> r.Stk? && r.items == dest.items + src.items[..i]
    {
      r := Push(r, src.items[i]);
      assert src.items[..i + 1] == src.items[..i] + [src.items[i]];
    }
    assert src.items[..|src.items|] == src.items;
  }

  /** Round trip: popping right after a push on a non-nil stack gives back the
      pushed value and the original contents; on nil both are no-ops. */
  lemma PushPop(s: Stack, v: string)
    ensures s.Stk? ==> Pop(Push(s, v)) == (v, s)
    ensures s.Nil? ==> Pop(Push(s, v)) == ("", Nil)
  {
  }

  /** The stack after `k` successive pops (the popped values are dropped). */
  function PopTimes(s: Stack, k: nat): Stack
    decreases k
  {
    if k == 0 then s else PopTimes(Pop(s).1, k - 1)
  }

  /** Popping a stack of `n` elements `k <= n` times leaves a NON-nil stack
      holding the first `n - k` elements: in particular the `n`-th pop gives a
      non-nil empty stack, and only the pop after it gives nil. */
  lemma {:induction false} PopTimesPrefix(xs: seq<string>, k: nat)
    requires k <= |xs|
    ensures PopTimes(Stk(xs), k) == Stk(xs[..|xs| - k])
    ensures PopTimes(Stk(xs), k + 1) == (if k == |xs| then Nil else Stk(xs[..|xs| - k - 1]))
    decreases k
  {
    if k == 0 {
      assert xs[..|xs|] == xs;
      if |xs| > 0 {
        assert PopTimes(Stk(xs), 1) == PopTimes(Pop(Stk(xs)).1, 0);
      }
    } else {
      var p := Pop(Stk(xs)).1;
      assert p == Stk(xs[..|xs| - 1]);
      PopTimesPrefix(xs[..|xs| - 1], k - 1);
      assert xs[..|xs| - 1][..|xs| - 1 - (k - 1)] == xs[..|xs| - k];
      if k < |xs| {
        assert xs[..|xs| - 1][..|xs| - 1 - (k - 1) - 1] == xs[..|xs| - k - 1];
      }
    }
  }
}

=== FILE: walk.dfy ===
/** The two walks of the source tree in `parallelCopy` (cpj.go): `countFiles`
    counts the entries that are not directories, `visitDirectory` pushes their
    paths onto a stack. The filesystem walk itself is abstracted as the
    sequence of entries it visits, in visit order. */
module Walk {
  import opened Stacks

  /** One entry handed to a walk callback: its path and whether it is a directory. */
  datatype Entry = Entry(path: string, isDir: bool)

  /** Reference definition: the paths of the non-directory entries, in visit order. */
  function FilesOf(visits: seq<Entry>): seq<string>
  {
    if |visits| == 0 then []
    else
      var last := visits[|visits| - 1];
      FilesOf(visits[..|visits| - 1]) + (if last.isDir then [] else [last.path])
  }

  /** The positions of the non-directory entries among the first `n` visits. */
  function FileIndices(visits: seq<Entry>, n: nat): set<nat>
    requires n <= |visits|
  {
    set i: nat | i < n && !visits[i].isDir
  }

  /** `countFiles` applied to every visited entry: the counter grows by one for
      each entry that is not a directory. */
  method CountFiles(visits: seq<Entry>) returns (count: nat)
    ensures count == |FilesOf(visits)|
    ensures count == |FileIndices(visits, |visits|)|
  {
    count := 0;
    for i := 0 to |visits|
      invariant count == |FilesOf(visits[..i])|
    {
      assert visits[..i + 1][..i] == visits[..i];
      if !visits[i].isDir {
        count := count + 1;
      }
    }
    assert visits[..|visits|] == visits;
    FilesOfCount(visits, |visits|);
  }

  /** `recurseFileTree`: `visitDirectory` is applied to every visited entry
      with a pointer to `stk`, which is never nil, and pushes each
      non-directory path in visit order; the grown slice is returned. */
  method RecurseFileTree(stk: seq<string>, visits: seq<Entry>) returns (files: seq<string>)
    ensures files == stk + FilesOf(visits)
  {
    var r := Stk(stk);
    for i := 0 to |visits|
      invariant r == Stk(stk + FilesOf(visits[..i]))
    {
      assert visits[..i + 1][..i] == visits[..i];
      if !visits[i].isDir {
        r := Push(r, visits[i].path);
      }
    }
    assert visits[..|visits|] == visits;
    files := r.items;
  }

  /** The number of files collected is the number of non-directory positions. */
  lemma {:induction false} FilesOfCount(visits: seq<Entry>, n: nat)
    requires n <= |visits|
    ensures |FilesOf(visits[..n])| == |FileIndices(visits, n)|
    decreases n
  {
    if n == 0 {
      assert FileIndices(visits, 0) == {};
    } else {
      FilesOfCount(visits, n - 1);
      assert visits[..n][..n - 1] == visits[..n - 1];
      if visits[n - 1].isDir {
        assert FileIndices(visits, n) == FileIndices(visits, n - 1);
      } else {
        assert FileIndices(visits, n) == FileIndices(visits, n - 1) + {n - 1};
      }
    }
  }

  /** A path is collected exactly when some visited non-directory entry has it. */
  lemma {:induction false} FilesOfMembership(visits: seq<Entry>, p: string)
    ensures p in FilesOf(visits) <==> exists i :: 0 <= i < |visits| && !visits[i].isDir && visits[i].path == p
  {
    if |visits| > 0 {
      var init := visits[..|visits| - 1];
      FilesOfMembership(init, p);
      if p in FilesOf(init) {
        var i :| 0 <= i < |init| && !init[i].isDir && init[i].path == p;
        assert visits[i] == init[i];
      }
      if exists i :: 0 <= i < |visits| && !visits[i].isDir && visits[i].path == p {
        var i :| 0 <= i < |visits| && !visits[i].isDir && visits[i].path == p;
        if i < |init| {
          assert init[i] == visits[i];
        }
      }
    }
  }
}
